=== FILE: README.md ===
# Trivia API handlers in Dafny

This project models the decision logic of the trivia quiz backend's Flask
handlers (`backend/flaskr/__init__.py`). The handlers serve pages of
questions, add or search questions, list categories and pick quiz questions.
The model states that logic as pure functions over sequences of `Question`
and `Category` rows, plus one method for the quiz's retry loop:

- `Pagination`: the fixed page size of 10, the `start`/`end` offsets, the 404
  past the end and Python's slice semantics for pages below 1.
- `AddQuestion`: the validation block of `handle_add_question` and the fields
  handed to the `Question` constructor.
- `PostQuestions`: the dispatch of `add_question` (`question` key, then
  `search_term` key, else 400) and the search path.
- `Quiz`: the candidate pool, the length-based exhaustion check and the
  retry loop. The random source is a parameter `draw`, where `draw(k)` is
  the k-th value of `randrange(len(questions))`.
- `Categories`: `get_categories_dict`, the category list folded into an
  id-to-type map.

A request body is modelled as the decoded Python value it becomes
(`PyValues.PyValue`: None, bool, int, str, list, dict). The Python builtins
the handlers apply to it are modelled with their failure cases: `v[key]`,
`len`, `in`, `str` and `int`. A builtin that raises yields `None`, and the
handler's `try`/`except` (or its absence) decides the status. `IntText`
models `str()` of an int and `int()` of a str in base 10.

Edge cases the code decides:
- A page number below 1 is not a 404. Page 0 is an empty page with status
  200, and a negative page slices from the end of the list.
- An empty quiz pool whose length differs from `previous_questions` raises in
  `randrange(0)`, giving a 500.
- Quiz exhaustion is decided by comparing lengths, not by checking which ids
  were shown (see Findings).

## Model

| member | source | states |
|---|---|---|
| `Pagination.GetQuestions` | backend/flaskr/__init__.py:36-51 | 500 exactly when `int()` of the page argument raises; otherwise 404 exactly when `10*(page-1) >= total`; a found page is that page of the list (at most 10 questions), reports the full question count, not the page length, and carries the category map |
| `Pagination.PageNumber` | backend/flaskr/__init__.py:36 | a given `page` argument parses exactly when it is a numeral surrounded by the white space `int()` strips |
| `Pagination.DefaultPageIsFirst` | backend/flaskr/__init__.py:36 | a request without `page` is answered exactly like `page=1` |
| `Pagination.PySlice` | backend/flaskr/__init__.py:47 | `s[lo:hi]` never holds more than `hi - lo` elements, nor more than the list |
| `Pagination.Paginate` | backend/flaskr/__init__.py:38-43 | a page that is not a 404 never holds more than `QUESTIONS_PER_PAGE` questions |
| `Pagination.PositivePage` | backend/flaskr/__init__.py:38-48 | for page >= 1: 404 exactly when `10*(page-1) >= total`; otherwise the contiguous run from `start` of length `min(10, total - start)` |
| `Pagination.PageBelowOne` | backend/flaskr/__init__.py:38-47 | pages below 1 are never 404; page 0 is empty; a negative page is the run Python's negative slice indices select from the end |
| `Pagination.PageExists` | backend/flaskr/__init__.py:38-43 | page p >= 1 exists exactly when p <= ceil(total / 10) |
| `Pagination.FirstPagesArePrefix` | backend/flaskr/__init__.py:38-47 | pages 1..n concatenated are the first 10n questions |
| `Pagination.PagesCoverAll` | backend/flaskr/__init__.py:38-47 | reading every existing page in order returns every question exactly once, in order |
| `Categories.CategoryMap` | backend/flaskr/__init__.py:174-179 | the map's keys are exactly the listed ids, and each id maps to the type of the last category carrying it |
| `Categories.CategoryMapOfUniqueIds` | backend/flaskr/__init__.py:174-179 | with unique ids every category maps to its own type and the map has one entry per category |
| `AddQuestion.Valid` | backend/flaskr/__init__.py:86-91 | passing validation needs a dict holding all four keys, a category other than `""`, and a question and answer that are not empty strs, lists or dicts |
| `AddQuestion.HandleAdd` | backend/flaskr/__init__.py:84-99 | 400 exactly when validation raises or fails; otherwise the inserted fields have a non-empty question, answer and category text and a positive difficulty, with question and answer as posted, the category as `str(...)` and the difficulty as `int(...)` of the posted values |
| `AddQuestion.RejectsExactly` | backend/flaskr/__init__.py:86-99 | for any body with text question and answer, whatever its other keys and their order: rejected exactly when question, answer or category text is empty, or `int()` of the difficulty raises or is <= 0; otherwise stored as question, answer, `str(category)`, `int(difficulty)` |
| `AddQuestion.StoresConvertedFields` | backend/flaskr/__init__.py:98-99 | a category sent as a number is stored as its decimal text, and a difficulty sent as a numeral (optional `+`, any leading zeros, then digits) is stored as the number the digits spell |
| `AddQuestion.InsertTestBodyAccepted` | backend/test_flaskr.py:70-78 | the insert test's body (difficulty before category, category `"1"`) is accepted and stored with category `"1"` and difficulty 1 |
| `AddQuestion.MissingFieldRejected` | backend/flaskr/__init__.py:86-95 | a body missing any of the four fields is a 400 |
| `AddQuestion.QuestionAndAnswerOnlyRejected` | backend/test_flaskr.py:86-95 | the body of the 400 test case (question and answer only) is rejected |
| `IntText.ParseInt` | backend/flaskr/__init__.py:36 | `int()` of a str succeeds exactly on an optionally signed numeral (single underscores between digits) surrounded by white space; a negative value needs a minus sign |
| `PyValues.ToInt` | backend/flaskr/__init__.py:92 | `int()` of an int or bool is its number (`True` is 1), of a str the parse of its text; it raises for None, a list, a dict and a str that is no numeral |
| `PyValues.Contains` | backend/flaskr/__init__.py:73-75 | `in` raises exactly for a container that is not a list, dict or str, or a non-str item in a str; on a dict, `key in d` holds exactly when `d[key]` does not raise |
| `PyValues.Index` | backend/flaskr/__init__.py:87-90 | `v[key]` succeeds exactly on a dict holding the key, and yields the value stored with it |
| `PyValues.Len` | backend/flaskr/__init__.py:156 | `len()` succeeds exactly on a str, list or dict, and is 0 exactly for `""`, `[]` and `{}` |
| `PyValues.Repr` | backend/flaskr/__init__.py:99 | `repr()` is never empty; of an int it is `str()` of the int; of a str it is the text between matching quotes; of a list it is enclosed in `[]`, of a dict in `{}` |
| `PyValues.QuoteStr` | backend/flaskr/__init__.py:145 | a str's `repr` opens and closes with the same quote, which is `"` exactly when the text holds `'` and no `"` |
| `PyValues.ToStr` | backend/flaskr/__init__.py:89 | `str(v)` is empty exactly for the empty string, so only `""` fails the category check |
| `PyValues.IntOfStrOfInt` | backend/flaskr/__init__.py:99 | the `PyValue` form of `IntText.ParseDecimal`: `int()` of the str `str()` makes of an int `n` is `n` |
| `IntText.ParseDecimal` | backend/flaskr/__init__.py:36 | `int()` reads back every decimal numeral `str()` writes, negative ones included |
| `IntText.ParsePaddedDecimal` | backend/flaskr/__init__.py:90 | `int()` of zeros followed by the digits of `n` is `n` (`int("007") == 7`) |
| `IntText.ParsePlusPaddedDecimal` | backend/flaskr/__init__.py:90 | the same with a leading `+` (`int("+007") == 7`) |
| `IntText.ParseIgnoresSurroundingSpace` | backend/flaskr/__init__.py:36 | `int()` of a page argument ignores the white space `int()` strips (ASCII space, `\t\n\v\f\r`, U+0085, U+00A0) around the number |
| `IntText.LeadingSeparatorRejected` | backend/flaskr/__init__.py:36 | a U+001C before a numeral is not stripped: `int()` raises |
| `IntText.TrailingSeparatorRejected` | backend/flaskr/__init__.py:90 | a U+001F after a numeral is not stripped: `int()` raises |
| `IntText.Decimal` | backend/flaskr/__init__.py:145 | `str()` of an int is non-empty, starts with a digit for `n >= 0` and with `-` for a negative `n` |
| `PostQuestions.RouteOf` | backend/flaskr/__init__.py:72-78 | a dict goes to the add path exactly when it has a `question` key, to the search path exactly when it has `search_term` and no `question`; a str is routed by substring; a missing body, None, bool or int is routed nowhere |
| `PostQuestions.PostQuestion` | backend/flaskr/__init__.py:69-82 | for a dict body: the add outcome when `question` is a key, else the search outcome when `search_term` is, else 400; an insert is requested only with the fields validation produced, and a search result only from the search path |
| `PostQuestions.HandleSearch` | backend/flaskr/__init__.py:110-124 | 422 unless the body is a dict whose `search_term` is a str; otherwise the questions are exactly those whose text matches the term, each as often as the store lists it, and the count equals their number |
| `PostQuestions.QuestionKeyWins` | backend/flaskr/__init__.py:73-74 | a dict with a `question` key takes the add path even when `search_term` is present |
| `PostQuestions.SearchTermRoutesToSearch` | backend/flaskr/__init__.py:75-76 | a dict with `search_term` and no `question` takes the search path |
| `PostQuestions.NeitherKeyIsBadRequest` | backend/flaskr/__init__.py:77-82 | a dict with neither key is a 400 |
| `PostQuestions.NonObjectBodyFails` | backend/flaskr/__init__.py:71-82 | a missing body or a body that is not a JSON object never adds and never searches: 400 or 422 |
| `PostQuestions.StringBodyOutcome` | backend/flaskr/__init__.py:73-82 | a JSON string body is dispatched by substring `in`: 422 when it contains `search_term` but not `question`, 400 otherwise |
| `Quiz.QuizRequest` | backend/flaskr/__init__.py:144-146 | the request succeeds exactly when the body has `quiz_category`, that has `id`, and the body has `previous_questions`; the category id is `str()` of the posted id |
| `Quiz.Pool` | backend/flaskr/__init__.py:148-153 | category id `'0'` yields all questions; any other id yields exactly the questions whose category text equals it, each as often as the store lists it, so the pool's length is the number of matching rows |
| `Quiz.PoolOfOne` | backend/flaskr/__init__.py:148-153 | a single question is its own pool exactly when category `'0'` is asked for or it carries the category; with `PoolKeepsOrder` the pool of every list is fixed, duplicates and order included |
| `Quiz.PoolKeepsOrder` | backend/flaskr/__init__.py:149-153 | the pool keeps the questions in the order the store lists them |
| `Quiz.QuizRound` | backend/flaskr/__init__.py:144-160 | `False` exactly when the pool's length equals `len(previous_questions)`; the loop is entered exactly for a well-formed request whose lengths differ, whose pool is non-empty and whose `previous_questions` is a list or dict, and the loop then runs over that pool and the posted `previous_questions` |
| `Quiz.DrawUnseen` | backend/flaskr/__init__.py:159-163 | if some draw hits an unseen candidate, the loop stops at the first such draw and returns a pool member not in `previous_questions` |
| `Quiz.GetQuizQuestion` | backend/flaskr/__init__.py:143-168 | 500 exactly on the raising inputs; `False` exactly on length exhaustion; otherwise a question from the chosen pool that was not shown before |
| `Quiz.AllSeenNeverStops` | backend/flaskr/__init__.py:159-163 | when every candidate was shown, no sequence of draws ends the loop |
| `Quiz.Seen` | backend/flaskr/__init__.py:162 | a question counts as shown only when `previous_questions` is a list holding a number equal to its id; a dict of str keys never marks one shown |
| `Quiz.SeenInIdList` | backend/flaskr/__init__.py:162 | for a list of int ids, `id in previous_questions` is list membership |
| `Quiz.LengthCheckMissesExhaustion` | backend/flaskr/__init__.py:155-163 | an input whose lengths differ while every candidate was shown, so the loop is entered and cannot end |
| `Quiz.LengthCheckEndsEarly` | backend/flaskr/__init__.py:155-157 | an input whose lengths match while a candidate is still unseen, so `False` is returned too early |
| `Quiz.LengthCheckSoundForConsistentClients` | backend/flaskr/__init__.py:155-157 | with distinct ids that all belong to the pool, equal lengths hold exactly when every candidate was shown |
| `Quiz.PickUnseen` | backend/flaskr/__init__.py:155-163 | corrected selection: none exactly when every candidate was shown; otherwise an unseen pool member |
| `Quiz.CorrectedQuizQuestion` | backend/flaskr/__init__.py:143-168 | the handler with the corrected rule: 500 only for a malformed request; `False` exactly when every candidate of the chosen pool was shown; otherwise an unseen candidate |

## Left out

- Flask plumbing is not modelled: app construction, routing, `jsonify`, the CORS headers (lines 14-23) and the constant error handlers (lines 182-206). A response is a datatype value with the status it would carry.
- SQLAlchemy is not modelled: `Question.query`, `insert`, `delete` and id assignment. Query results are plain sequences. The add path ends with the fields handed to `insert()`; whether the store answers 200 with an id or 422 is outside the model.
- PostQuestions.HandleSearch: `ILIKE '%term%'` runs in the database, so it is the parameter `matches`. A database error during the search (422) is not modelled.
- The delete handler (lines 55-65) and the category-questions handler (lines 128-139) are not modelled. Their behaviour is a database lookup plus the status the exception maps to.
- `random.randrange` is the parameter `draw`. Its probability distribution is not modelled.
- Quiz.GetQuizQuestion: requires that some draw hits an unseen candidate. Without that, Python loops forever, which a terminating method cannot express. `Quiz.LengthCheckMissesExhaustion` and `Quiz.AllSeenNeverStops` describe those inputs.
- Quiz.GetQuizQuestion: a missing body stands for `request.get_json()` returning None (then indexing it raises, a 500). An error raised inside `get_json` itself (a malformed JSON body, 400; a non-JSON content type, 415 in recent Flask) is not modelled. In `PostQuestions` such an error lands in the outer `except` and is a 400, the same as a missing body.
- JSON numbers with a fraction or an exponent (Python floats), and the non-standard `NaN`/`Infinity` literals, are not modelled.
- `int()` of a str accepts ASCII digits only. Of the characters up to U+00FF, the white space it strips is the ASCII space, `\t\n\v\f\r`, U+0085 and U+00A0; the separators U+001C to U+001F make it raise. Unicode digits and white space beyond U+00FF are not modelled.
- IntText.ParseInt: the value of a numeral with underscores (`int("1_0") == 10`) is computed by `DigitsValue`, but no lemma states it; the lemmas state the value of numerals without underscores.
- `repr()` of a str (used by `str()` of a list or dict) escapes non-printable characters only up to U+00FF.
- A decoded dict is assumed to hold one entry per key, which is what the JSON decoder produces.
- The limit recent Python versions put on converting integers of more than 4300 digits between text and int (a ValueError) is not modelled.
- The constant response fields (`success`, `current_category: None`) and the `format()` serialisation of rows are not modelled. `jsonify` turning integer category ids into string keys is not modelled either.

## Findings

| source | as written | input that shows it | evidently intended | confidence | as-written member | corrected member |
|---|---|---|---|---|---|---|
| backend/flaskr/__init__.py:155-163 | quiz exhaustion compares `len(questions)` with `len(previous_questions)` | category `"1"` holding only question 1, `previous_questions` `[1, 2]`: the lengths differ, every candidate was shown, and the retry loop never ends. Category `0`, only question 2 stored, `previous_questions` `[1]`: `False` is returned although question 2 was never shown | `False` exactly when every candidate id is in `previous_questions`; otherwise a draw among the unseen candidates | medium, not executed | `Quiz.LengthCheckMissesExhaustion` | `Quiz.PickUnseen` |

`Quiz.LengthCheckEndsEarly` exhibits the second input of the finding.
`Quiz.LengthCheckSoundForConsistentClients` shows the two rules agree when a
client sends only distinct ids of the current pool. `Quiz.CorrectedQuizQuestion`
is the handler built on the corrected rule.

=== FILE: add_question.dfy ===
/** `handle_add_question`: validation of a posted question and the record built from it. */
module AddQuestion {
  import opened Wrappers
  import opened PyValues
  import IntText

  /** The fields handed to the `Question` constructor: question and answer
      as posted, category as `str(...)`, difficulty as `int(...)`. */
  datatype NewQuestion = NewQuestion(
    question: PyValue,
    answer: PyValue,
    category: string,
    difficulty: int)

  datatype AddOutcome =
    | AddBadRequest                  // validation raised or failed: 400
    | AddInsert(fields: NewQuestion) // handed to `question.insert()`: 200 with its id, or 422 if the store refuses

  /** `len(body[key]) == 0` is False, and evaluating it did not raise. */
  predicate HasNonEmpty(body: PyValue, key: string) {
    match Index(body, key)
    case None => false
    case Some(v) => Len(v).Some? && Len(v).value > 0
  }

  /** The four checks of the validation block all pass without raising. */
  predicate Valid(body: PyValue)
    ensures Valid(body) ==>
      && body.PyDict?
      && HasKey(body.entries, "question") && HasKey(body.entries, "answer")
      && HasKey(body.entries, "category") && HasKey(body.entries, "difficulty")
      && Index(body, "category") != Some(PyStr(""))
      && Index(body, "question") !in {Some(PyStr("")), Some(PyList([])), Some(PyDict([]))}
      && Index(body, "answer") !in {Some(PyStr("")), Some(PyList([])), Some(PyDict([]))}
  {
    && HasNonEmpty(body, "question")
    && HasNonEmpty(body, "answer")
    && Index(body, "category").Some? && |ToStr(Index(body, "category").value)| > 0
    && Index(body, "difficulty").Some?
    && ToInt(Index(body, "difficulty").value).Some?
    && ToInt(Index(body, "difficulty").value).value > 0
  }

  /** The add path: 400 unless valid; otherwise the fields to insert, which
      satisfy the record invariant (non-empty question, answer and category,
      positive difficulty) and keep the posted question and answer unchanged. */
  function HandleAdd(body: PyValue): (r: AddOutcome)
    ensures r.AddBadRequest? <==> !Valid(body)
    ensures r.AddInsert? ==>
      && Len(r.fields.question).Some? && Len(r.fields.question).value > 0
      && Len(r.fields.answer).Some? && Len(r.fields.answer).value > 0
      && |r.fields.category| > 0
      && r.fields.difficulty > 0
      && Index(body, "question") == Some(r.fields.question)
      && Index(body, "answer") == Some(r.fields.answer)
      && Index(body, "category").Some? && r.fields.category == ToStr(Index(body, "category").value)
      && Index(body, "difficulty").Some? && ToInt(Index(body, "difficulty").value) == Some(r.fields.difficulty)
  {
    if Valid(body) then
      AddInsert(NewQuestion(
        Index(body, "question").value,
        Index(body, "answer").value,
        ToStr(Index(body, "category").value),
        ToInt(Index(body, "difficulty").value).value))
    else AddBadRequest
  }

  /** Whatever the body's other keys and their order: rejected exactly when
      the question, the answer or the category text is empty, or the
      difficulty is not a positive number `int()` accepts; an accepted body is
      stored with the category as `str(...)` and the difficulty as `int(...)`. */
  lemma RejectsExactly(body: PyValue, q: string, a: string, category: PyValue, difficulty: PyValue)
    requires Index(body, "question") == Some(PyStr(q))
    requires Index(body, "answer") == Some(PyStr(a))
    requires Index(body, "category") == Some(category)
    requires Index(body, "difficulty") == Some(difficulty)
    ensures HandleAdd(body).AddBadRequest? <==>
      (q == "" || a == "" || category == PyStr("") || ToInt(difficulty).None? || ToInt(difficulty).value <= 0)
    ensures HandleAdd(body).AddInsert? ==>
      HandleAdd(body).fields == NewQuestion(PyStr(q), PyStr(a), ToStr(category), ToInt(difficulty).value)
  {
  }

  /** A difficulty sent as text (an optional `+`, leading zeros, then the
      digits) is stored as the number it spells, and a category sent as a
      number is stored as its decimal text. */
  lemma StoresConvertedFields(body: PyValue, q: string, a: string, category: int, plus: bool, zeros: nat, d: nat)
    requires Index(body, "question") == Some(PyStr(q))
    requires Index(body, "answer") == Some(PyStr(a))
    requires Index(body, "category") == Some(PyInt(category))
    requires Index(body, "difficulty") == Some(PyStr((if plus then "+" else "") + (IntText.Zeros(zeros) + IntText.Digits(d))))
    requires q != "" && a != "" && d > 0
    ensures HandleAdd(body) == AddInsert(NewQuestion(PyStr(q), PyStr(a), IntText.Decimal(category), d))
  {
    var text := (if plus then "+" else "") + (IntText.Zeros(zeros) + IntText.Digits(d));
    if plus {
      IntText.ParsePlusPaddedDecimal(zeros, d);

    } else {
      IntText.ParsePaddedDecimal(zeros, d);
      assert text == IntText.Zeros(zeros) + IntText.Digits(d);
    }
    assert ToInt(PyStr(text)) == Some(d);
    assert ToStr(PyInt(category)) == IntText.Decimal(category);
    RejectsExactly(body, q, a, PyInt(category), PyStr(text));
  }


  /** The insert body of the repository's own test: difficulty listed before
      category, the category sent as text. */
  function TestInsertBody(): PyValue {
    PyDict([
      Entry("question", PyStr("Test question for insertion")),
      Entry("answer", PyStr("Answer of test question for insertion")),
      Entry("difficulty", PyInt(1)),
      Entry("category", PyStr("1"))])
  }

  /** The test's insert body passes validation and is stored with category
      "1" and difficulty 1. */
  lemma InsertTestBodyAccepted()
    ensures HandleAdd(TestInsertBody()) == AddInsert(NewQuestion(
      PyStr("Test question for insertion"),
      PyStr("Answer of test question for insertion"),
      "1", 1))
  {
  }

  /** A body missing any of the four fields is rejected. */
  lemma MissingFieldRejected(body: PyValue, key: string)
    requires key in ["question", "answer", "category", "difficulty"]
    requires Index(body, key).None?
    ensures HandleAdd(body) == AddBadRequest
  {
  }

  /** The body of the 400 test case: question and answer only. */
  lemma QuestionAndAnswerOnlyRejected()
    ensures HandleAdd(PyDict([
      Entry("question", PyStr("Test question for insertion")),
      Entry("answer", PyStr("Answer of test question for insertion"))])) == AddBadRequest
  {
    var body := PyDict([
      Entry("question", PyStr("Test question for insertion")),
      Entry("answer", PyStr("Answer of test question for insertion"))]);
    assert !HasKey(body.entries, "difficulty");
  }
}

=== FILE: categories.dfy ===
/** `get_categories_dict`: the category list folded into an id -> type map. */
module Categories {
  import opened Records

  /** No later category in `cats` has the same id as `cats[i]`. */
  predicate LastWithItsId(cats: seq<Category>, i: int)
    requires 0 <= i < |cats|
  {
    forall j :: i < j < |cats| ==> cats[j].id != cats[i].id
  }

  /** The loop `categories_dict[category.id] = category.type` over the list:
      the keys are exactly the ids listed, and each id maps to the type of the
      last category carrying it (later assignments overwrite earlier ones). */
  function CategoryMap(cats: seq<Category>): (m: map<int, string>)
    ensures m.Keys == set c | c in cats :: c.id
    ensures forall i :: 0 <= i < |cats| && LastWithItsId(cats, i) ==> m[cats[i].id] == cats[i].typeName
    decreases |cats|
  {
    if |cats| == 0 then map[]
    else
      var prefix := cats[..|cats| - 1];
      var last := cats[|cats| - 1];
      assert cats == prefix + [last];
      var m := CategoryMap(prefix);
      AssignLast(prefix, last, m);
      m[last.id := last.typeName]
  }

  /** One more loop iteration keeps both properties of the map built so far. */
  lemma AssignLast(prefix: seq<Category>, last: Category, m: map<int, string>)
    requires m.Keys == set c | c in prefix :: c.id
    requires forall i :: 0 <= i < |prefix| && LastWithItsId(prefix, i) ==> m[prefix[i].id] == prefix[i].typeName
    ensures var cats := prefix + [last];
      var r := m[last.id := last.typeName];
      && r.Keys == (set c | c in cats :: c.id)
      && forall i :: 0 <= i < |cats| && LastWithItsId(cats, i) ==> r[cats[i].id] == cats[i].typeName
  {
    var cats := prefix + [last];
    var r := m[last.id := last.typeName];
    assert (set c | c in cats :: c.id) == (set c | c in prefix :: c.id) + {last.id};
    forall i | 0 <= i < |cats| && LastWithItsId(cats, i)
      ensures r[cats[i].id] == cats[i].typeName
    {
      if i < |cats| - 1 {
        assert cats[i] == prefix[i];
        assert cats[|cats| - 1] == last;
        assert cats[i].id != last.id;
        forall j | i < j < |prefix| ensures prefix[j].id != prefix[i].id {
          assert prefix[j] == cats[j];
        }
        assert LastWithItsId(prefix, i);
      }
    }
  }

  /** With unique ids (as the table's primary key guarantees) every category
      appears with its own type, and the map has one entry per category. */
  lemma {:induction false} CategoryMapOfUniqueIds(cats: seq<Category>)
    requires forall i, j :: 0 <= i < j < |cats| ==> cats[i].id != cats[j].id
    ensures forall i :: 0 <= i < |cats| ==> CategoryMap(cats)[cats[i].id] == cats[i].typeName
    ensures |CategoryMap(cats)| == |cats|
    decreases |cats|
  {
    if |cats| > 0 {
      var prefix := cats[..|cats| - 1];
      CategoryMapOfUniqueIds(prefix);
    }
  }
}

=== FILE: int_text.dfy ===
/**
 * Python's base-10 integer text: `str(n)` of an int and `int(s)` of a str.
 * The handlers rely on both: `int(request.args.get('page', '1'))`,
 * `int(posted_data['difficulty'])` and `str(...)` of category ids.
 */
module IntText {
  import opened Wrappers

  predicate IsDigit(c: char) {
    '0' <= c <= '9'
  }

  function DigitValue(c: char): (d: nat)
    requires IsDigit(c)
    ensures d < 10
  {
    (c as int) - ('0' as int)
  }

  function DigitChar(d: nat): (c: char)
    requires d < 10
    ensures IsDigit(c) && DigitValue(c) == d
  {
    (('0' as int) + d) as char
  }

  /** The digits of `n`, most significant first, without leading zeros. */
  function Digits(n: nat): (s: string)
    ensures |s| > 0
    ensures forall i :: 0 <= i < |s| ==> IsDigit(s[i])
    decreases n
  {
    if n < 10 then [DigitChar(n)] else Digits(n / 10) + [DigitChar(n % 10)]
  }

  /** `str(n)` for a Python int: a minus sign for negatives, then the digits. */
  function Decimal(n: int): (s: string)
    ensures |s| > 0
    ensures n >= 0 ==> IsDigit(s[0])
    ensures n < 0 ==> s[0] == '-'
  {
    if n < 0 then "-" + Digits(-n) else Digits(n)
  }

  /** The white space `int()` strips around a number, for the characters up
      to U+00FF: the ASCII space and `\t\n\v\f\r`, plus the two non-ASCII
      spaces U+0085 and U+00A0. The ASCII separators U+001C to U+001F, which
      `str.isspace()` accepts, are not stripped: `int()` raises on them. */
  predicate IsIntSpace(c: char) {
    var n := c as int;
    n == 0x20 || 0x09 <= n <= 0x0D || n == 0x85 || n == 0xA0
  }

  /** `s` without its leading white space. */
  function TrimLeft(s: string): (t: string)
    ensures |t| <= |s| && t == s[|s| - |t|..]
    ensures |t| > 0 ==> !IsIntSpace(t[0])
  {
    if |s| > 0 && IsIntSpace(s[0]) then TrimLeft(s[1..]) else s
  }

  /** `s` without its trailing white space. */
  function TrimRight(s: string): (t: string)
    ensures |t| <= |s| && t == s[..|t|]
    ensures |t| > 0 ==> !IsIntSpace(t[|t| - 1])
  {
    if |s| > 0 && IsIntSpace(s[|s| - 1]) then TrimRight(s[..|s| - 1]) else s
  }

  /** What Python accepts after the sign: ASCII digits, with single
      underscores allowed only between two digits. */
  predicate WellFormedDigits(t: string) {
    && |t| > 0
    && IsDigit(t[0])
    && IsDigit(t[|t| - 1])
    && forall i :: 0 < i < |t| - 1 ==> IsDigit(t[i]) || UnderscoreBetweenDigits(t, i)
  }

  predicate UnderscoreBetweenDigits(t: string, i: int)
    requires 0 < i < |t| - 1
  {
    t[i] == '_' && IsDigit(t[i - 1]) && IsDigit(t[i + 1])
  }

  /** The value of a digit string, underscores skipped. */
  function DigitsValue(t: string): nat
  {
    if |t| == 0 then 0
    else if IsDigit(t[|t| - 1]) then DigitsValue(t[..|t| - 1]) * 10 + DigitValue(t[|t| - 1])
    else DigitsValue(t[..|t| - 1])
  }

  /** The base-10 literals `int()` accepts once white space is stripped: an
      optional sign, then well-formed digits. */
  predicate Numeral(t: string) {
    WellFormedDigits(t) || (|t| > 0 && (t[0] == '-' || t[0] == '+') && WellFormedDigits(t[1..]))
  }

  /** `int(s)` in base 10; `None` where Python raises ValueError. It succeeds
      exactly on a numeral surrounded by white space, and the value is
      negative only for a numeral written with a minus sign. */
  function ParseInt(s: string): (r: Option<int>)
    ensures r.Some? <==> Numeral(TrimRight(TrimLeft(s)))
    ensures r.Some? && r.value < 0 ==> TrimRight(TrimLeft(s))[0] == '-'
  {
    ParseTrimmed(TrimRight(TrimLeft(s)))
  }

  /** `int()` of text that has no surrounding white space: an optional sign, then digits. */
  function ParseTrimmed(t: string): Option<int>
  {
    if |t| > 0 && (t[0] == '-' || t[0] == '+') then
      match ParseUnsigned(t[1..])
      case None => None
      case Some(m) => var v: int := m; Some(if t[0] == '-' then -v else v)
    else
      match ParseUnsigned(t)
      case None => None
      case Some(m) => Some(m)
  }

  function ParseUnsigned(t: string): Option<nat>
  {
    if WellFormedDigits(t) then Some(DigitsValue(t)) else None
  }

  lemma {:induction false} DigitsValueOfDigits(n: nat)
    ensures DigitsValue(Digits(n)) == n
    decreases n
  {
    if n >= 10 {
      DigitsValueOfDigits(n / 10);
      var s := Digits(n / 10) + [DigitChar(n % 10)];
      assert s[..|s| - 1] == Digits(n / 10);
    }
  }

  /** Round trip: `int(str(n)) == n` for every int. */
  lemma ParseDecimal(n: int)
    ensures ParseInt(Decimal(n)) == Some(n)
  {
    var s := Decimal(n);
    assert TrimLeft(s) == s;
    assert IsDigit(s[|s| - 1]);
    assert TrimRight(s) == s;
    if n < 0 {
      ParseNegativeDigits(-n);
    } else {
      ParseDigits(n);
    }
  }

  lemma ParseDigits(m: nat)
    ensures ParseTrimmed(Digits(m)) == Some(m)
  {
    DigitsValueOfDigits(m);
    assert ParseUnsigned(Digits(m)) == Some(m);
  }

  lemma ParseNegativeDigits(m: nat)
    ensures ParseTrimmed("-" + Digits(m)) == Some(-(m as int))
  {
    var s := "-" + Digits(m);
    DigitsValueOfDigits(m);
    assert s[1..] == Digits(m);
    assert ParseUnsigned(s[1..]) == Some(m);
  }

  /** `k` zero digits. */
  function Zeros(k: nat): (z: string)
    ensures |z| == k
    ensures forall i :: 0 <= i < |z| ==> z[i] == '0'
  {
    if k == 0 then "" else Zeros(k - 1) + "0"
  }

  /** Leading zeros do not change the value of a digit string. */
  lemma {:induction false} ZerosPrefixValue(z: string, t: string)
    requires forall i :: 0 <= i < |z| ==> z[i] == '0'
    ensures DigitsValue(z + t) == DigitsValue(t)
    decreases |z| + |t|
  {
    if |t| > 0 {
      assert (z + t)[..|z + t| - 1] == z + t[..|t| - 1];
      assert (z + t)[|z + t| - 1] == t[|t| - 1];
      ZerosPrefixValue(z, t[..|t| - 1]);
    } else if |z| > 0 {
      assert z + t == z;
      assert z[..|z| - 1] + [] == z[..|z| - 1];
      ZerosPrefixValue(z[..|z| - 1], t);
    } else {
      assert z + t == [];
    }
  }

  /** Zeros followed by the digits of `n` form a digit string worth `n`. */
  lemma PaddedDigits(k: nat, n: nat)
    ensures WellFormedDigits(Zeros(k) + Digits(n))
    ensures DigitsValue(Zeros(k) + Digits(n)) == n
  {
    var t := Zeros(k) + Digits(n);
    assert forall i :: 0 <= i < |t| ==> IsDigit(t[i]);
    ZerosPrefixValue(Zeros(k), Digits(n));
    DigitsValueOfDigits(n);
  }

  /** Text without white space at either end is parsed as it stands. */
  lemma ParseUntrimmed(s: string)
    requires |s| > 0 && !IsIntSpace(s[0]) && !IsIntSpace(s[|s| - 1])
    ensures ParseInt(s) == ParseTrimmed(s)
  {
    assert TrimLeft(s) == s;
    assert TrimRight(s) == s;
  }

  /** `int()` of a non-negative numeral written with leading zeros is the
      number the digits spell: `int("007") == 7`. */
  lemma ParsePaddedDecimal(k: nat, n: nat)
    ensures ParseInt(Zeros(k) + Digits(n)) == Some(n)
  {
    var t := Zeros(k) + Digits(n);
    PaddedDigits(k, n);
    ParseUntrimmed(t);
  }

  /** The same with a `+` sign in front: `int("+007") == 7`. */
  lemma ParsePlusPaddedDecimal(k: nat, n: nat)
    ensures ParseInt("+" + (Zeros(k) + Digits(n))) == Some(n)
  {
    var t := Zeros(k) + Digits(n);
    PaddedDigits(k, n);
    var s := "+" + t;
    assert s[1..] == t && s[|s| - 1] == t[|t| - 1];
    ParseUntrimmed(s);
  }

  /** `int()` ignores white space around the number. */
  lemma ParseIgnoresSurroundingSpace(pre: string, s: string, post: string)
    requires forall i :: 0 <= i < |pre| ==> IsIntSpace(pre[i])
    requires forall i :: 0 <= i < |post| ==> IsIntSpace(post[i])
    requires |s| > 0 && !IsIntSpace(s[0]) && !IsIntSpace(s[|s| - 1])
    ensures ParseInt(pre + s + post) == ParseInt(s)
  {
    var x := pre + s + post;
    assert x == pre + (s + post);
    TrimLeftSkipsSpace(pre, s + post);
    TrimRightSkipsSpace(s, post);
    assert TrimRight(TrimLeft(x)) == s;
    assert TrimRight(TrimLeft(s)) == s;
  }

  lemma {:induction false} TrimLeftSkipsSpace(pre: string, s: string)
    requires forall i :: 0 <= i < |pre| ==> IsIntSpace(pre[i])
    requires |s| > 0 && !IsIntSpace(s[0])
    ensures TrimLeft(pre + s) == s
    decreases |pre|
  {
    if |pre| == 0 {
      assert pre + s == s;
    } else {
      assert (pre + s)[1..] == pre[1..] + s;
      TrimLeftSkipsSpace(pre[1..], s);
    }
  }

  lemma {:induction false} TrimRightSkipsSpace(s: string, post: string)
    requires forall i :: 0 <= i < |post| ==> IsIntSpace(post[i])
    requires |s| > 0 && !IsIntSpace(s[|s| - 1])
    ensures TrimRight(s + post) == s
    decreases |post|
  {
    if |post| == 0 {
      assert s + post == s;
    } else {
      var shorter := post[..|post| - 1];
      assert (s + post)[..|s + post| - 1] == s + shorter;
      TrimRightSkipsSpace(s, shorter);
    }
  }

  /** `int()` does not strip the ASCII information separators: a file
      separator (U+001C) before a numeral makes it raise. */
  lemma LeadingSeparatorRejected(s: string)
    requires |s| > 0 && IsDigit(s[|s| - 1])
    ensures ParseInt(['\U{1C}'] + s) == None
  {
    var x := ['\U{1C}'] + s;
    assert !IsIntSpace(x[0]);
    assert TrimLeft(x) == x;
    assert !IsIntSpace(x[|x| - 1]);
    assert TrimRight(x) == x;
    assert !IsDigit(x[0]) && x[0] != '-' && x[0] != '+';
  }

  /** Likewise a unit separator (U+001F) after a numeral. */
  lemma TrailingSeparatorRejected(s: string)
    requires |s| > 0 && IsDigit(s[0])
    ensures ParseInt(s + ['\U{1F}']) == None
  {
    var y := s + ['\U{1F}'];
    assert !IsIntSpace(y[|y| - 1]);
    assert TrimRight(y) == y;
    assert !IsIntSpace(y[0]);
    assert TrimLeft(y) == y;
    assert !IsDigit(y[|y| - 1]);
    assert !WellFormedDigits(y[1..]);
  }
}

=== FILE: pagination.dfy ===
/** `get_questions`: fixed-size pages of the question list, 404 past the end. */
module Pagination {
  import opened Wrappers
  import opened Records
  import IntText
  import Categories

  /** `QUESTIONS_PER_PAGE`. */
  const QuestionsPerPage: nat := 10

  /** Python's normalisation of a slice bound `i` against a length `n`
      (step 1): a negative bound counts from the end, then both are clamped. */
  function SliceBound(i: int, n: nat): (b: nat)
    ensures b <= n
    ensures 0 <= i <= n ==> b == i
    ensures i < 0 ==> b == if i + n < 0 then 0 else i + n
  {
    if i < 0 then (if i + n < 0 then 0 else i + n) else if i > n then n else i
  }

  /** `s[lo:hi]`: the run between the normalised bounds, or empty when they cross. */
  function PySlice<T>(s: seq<T>, lo: int, hi: int): (r: seq<T>)
    ensures |r| <= |s|
    ensures lo <= hi ==> |r| <= hi - lo
  {
    var a := SliceBound(lo, |s|);
    var b := SliceBound(hi, |s|);
    if a < b then s[a..b] else []
  }

  /** The page number the handler computes with: `int(request.args.get('page', '1'))`,
      None where `int` raises. */
  function PageNumber(arg: Option<string>): (r: Option<int>)
    ensures arg.Some? ==> (r.Some? <==> IntText.Numeral(IntText.TrimRight(IntText.TrimLeft(arg.value))))
  {
    IntText.ParseInt(if arg.Some? then arg.value else "1")
  }

  /** One page of `all`, or None for the 404 (`start >= total_questions`). */
  function Paginate<T>(all: seq<T>, page: int): (r: Option<seq<T>>)
    ensures r.None? <==> QuestionsPerPage * (page - 1) >= |all|
    ensures r.Some? ==> |r.value| <= QuestionsPerPage
  {
    var start := QuestionsPerPage * (page - 1);
    var end := start + QuestionsPerPage;
    if start >= |all| then None else Some(PySlice(all, start, end))
  }

  datatype PageResponse =
    | PageServerError                     // `int()` raised: an uncaught error, 500
    | PageNotFound                        // `abort(404)`
    | PageOk(questions: seq<Question>, totalQuestions: nat, categories: map<int, string>)

  /** The whole handler: the page of questions, the full count and the category map. */
  function GetQuestions(arg: Option<string>, all: seq<Question>, cats: seq<Category>): (r: PageResponse)
    ensures r.PageServerError? <==> PageNumber(arg).None?
    ensures r.PageOk? ==> r.totalQuestions == |all| && |r.questions| <= QuestionsPerPage
    ensures PageNumber(arg).Some? ==>
      (r.PageNotFound? <==> QuestionsPerPage * (PageNumber(arg).value - 1) >= |all|)
    ensures r.PageOk? ==>
      && r.questions == Paginate(all, PageNumber(arg).value).value
      && r.categories == Categories.CategoryMap(cats)
  {
    match PageNumber(arg)
    case None => PageServerError
    case Some(page) =>
      match Paginate(all, page)
      case None => PageNotFound
      case Some(slice) => PageOk(slice, |all|, Categories.CategoryMap(cats))
  }

  function Min(a: int, b: int): int {
    if a <= b then a else b
  }

  /** A missing `page` argument means page 1. */
  lemma DefaultPageIsFirst(all: seq<Question>, cats: seq<Category>)
    ensures PageNumber(None) == Some(1)
    ensures GetQuestions(None, all, cats) == GetQuestions(Some("1"), all, cats)
  {
    IntText.ParseDecimal(1);
    assert IntText.Decimal(1) == "1";
  }

  /** For pages from 1 on: 404 exactly when `10 * (page - 1) >= total`; otherwise
      the contiguous run from `start` of length `min(10, total - start)`. */
  lemma PositivePage<T>(all: seq<T>, page: int)
    requires page >= 1
    ensures Paginate(all, page).None? <==> QuestionsPerPage * (page - 1) >= |all|
    ensures Paginate(all, page).Some? ==>
      var start := QuestionsPerPage * (page - 1);
      var stop := Min(start + QuestionsPerPage, |all|);
      && Paginate(all, page).value == all[start..stop]
      && |Paginate(all, page).value| == Min(QuestionsPerPage, |all| - start)
  {
  }

  /** Pages below 1 are never 404: page 0 is empty and a negative page slices
      from the end of the list, as Python's negative indices do. */
  lemma PageBelowOne<T>(all: seq<T>, page: int)
    requires page <= 0
    ensures Paginate(all, page).Some?
    ensures page == 0 ==> Paginate(all, page).value == []
    ensures page < 0 ==>
      var start := QuestionsPerPage * (page - 1);
      var lo := if |all| + start < 0 then 0 else |all| + start;
      var hi := if |all| + start + QuestionsPerPage < 0 then 0 else |all| + start + QuestionsPerPage;
      Paginate(all, page).value == all[lo..hi]
  {
  }

  /** Number of pages that exist: `ceil(total / 10)`. */
  function PageCount(total: nat): nat {
    (total + QuestionsPerPage - 1) / QuestionsPerPage
  }

  /** Page `page >= 1` exists exactly up to the page count. */
  lemma PageExists<T>(all: seq<T>, page: int)
    requires page >= 1
    ensures Paginate(all, page).Some? <==> page <= PageCount(|all|)
  {
  }

  /** Pages 1 to `n`, concatenated (a missing page contributes nothing). */
  function FirstPages<T>(all: seq<T>, n: nat): seq<T>
  {
    if n == 0 then []
    else FirstPages(all, n - 1) + (match Paginate(all, n) case Some(p) => p case None => [])
  }

  /** The first `n` existing pages are the first `10 * n` questions. */
  lemma {:induction false} FirstPagesArePrefix<T>(all: seq<T>, n: nat)
    requires n <= PageCount(|all|)
    ensures FirstPages(all, n) == all[..Min(QuestionsPerPage * n, |all|)]
  {
    if n > 0 {
      FirstPagesArePrefix(all, n - 1);
      PageExists(all, n);
      PositivePage(all, n);
      var start := QuestionsPerPage * (n - 1);
      assert Min(QuestionsPerPage * (n - 1), |all|) == start;
      assert all[..start] + all[start..Min(start + QuestionsPerPage, |all|)]
          == all[..Min(QuestionsPerPage * n, |all|)];
    }
  }

  /** Reading every page in order gives back every question exactly once, in order. */
  lemma PagesCoverAll<T>(all: seq<T>)
    ensures FirstPages(all, PageCount(|all|)) == all
  {
    FirstPagesArePrefix(all, PageCount(|all|));
    assert Min(QuestionsPerPage * PageCount(|all|), |all|) == |all|;
  }
}

=== FILE: post_questions.dfy ===
/** `add_question` and `handle_search_question`: POST /api/questions routes a
    body to the add path or the search path. */
module PostQuestions {
  import opened Wrappers
  import opened Records
  import opened PyValues
  import opened AddQuestion
  import Seqs

  datatype Route = ToAdd | ToSearch | NoRoute

  /** The dispatch: `'question' in posted_data` first, then `'search_term' in
      posted_data`. A missing or undecodable body, or a membership test that
      raises, lands in the outer `except` like the explicit ValueError does. */
  function RouteOf(body: Option<PyValue>): (r: Route)
    ensures body.None? ==> r == NoRoute
    ensures body.Some? && body.value.PyDict? ==>
      && (r == ToAdd <==> HasKey(body.value.entries, "question"))
      && (r == ToSearch <==> !HasKey(body.value.entries, "question") && HasKey(body.value.entries, "search_term"))
    ensures body.Some? && body.value.PyStr? ==>
      && (r == ToAdd <==> IsSubstring("question", body.value.s))
      && (r == ToSearch <==> !IsSubstring("question", body.value.s) && IsSubstring("search_term", body.value.s))
    ensures body.Some? && !(body.value.PyDict? || body.value.PyStr? || body.value.PyList?) ==> r == NoRoute
  {
    match body
    case None => NoRoute
    case Some(b) =>
      match Contains(b, PyStr("question"))
      case None => NoRoute
      case Some(true) => ToAdd
      case Some(false) =>
        if Contains(b, PyStr("search_term")) == Some(true) then ToSearch else NoRoute
  }

  datatype PostResponse =
    | BadRequest                                         // 400
    | Unprocessable                                      // 422
    | InsertRequested(fields: NewQuestion)               // the add path reached `insert()`
    | SearchOk(questions: seq<Question>, totalQuestions: nat)

  /** The search path. `'%' + term + '%'` raises unless the term is a str,
      and indexing raises unless the body is a dict; both become 422. The
      database's `ILIKE` test is the parameter `matches(text, term)`. */
  function HandleSearch(body: PyValue, all: seq<Question>, matches: (string, string) -> bool): (r: PostResponse)
    ensures r.SearchOk? || r == Unprocessable
    ensures r.SearchOk? <==> Index(body, "search_term").Some? && Index(body, "search_term").value.PyStr?
    ensures r.SearchOk? ==> r.totalQuestions == |r.questions|
    ensures r.SearchOk? ==>
      var term := Index(body, "search_term").value.s;
      forall q :: q in r.questions <==> q in all && matches(q.question, term)
    ensures r.SearchOk? ==>
      var term := Index(body, "search_term").value.s;
      forall q :: multiset(r.questions)[q] == if matches(q.question, term) then multiset(all)[q] else 0
  {
    match Index(body, "search_term")
    case Some(PyStr(term)) =>
      var hit := (q: Question) => matches(q.question, term);
      Seqs.FilterCounts(all, hit);
      var found := Seqs.Filter(all, hit);
      SearchOk(found, |found|)
    case _ => Unprocessable
  }

  /** The whole POST handler. */
  function PostQuestion(body: Option<PyValue>, all: seq<Question>, matches: (string, string) -> bool): (r: PostResponse)
    ensures r.InsertRequested? ==> body.Some? && HandleAdd(body.value) == AddInsert(r.fields)
    ensures r.SearchOk? ==> body.Some? && r == HandleSearch(body.value, all, matches)
    ensures body.Some? && body.value.PyDict? ==>
      r == if HasKey(body.value.entries, "question") then
             (match HandleAdd(body.value) case AddBadRequest => BadRequest case AddInsert(f) => InsertRequested(f))
           else if HasKey(body.value.entries, "search_term") then HandleSearch(body.value, all, matches)
           else BadRequest
  {
    match RouteOf(body)
    case ToAdd =>
      (match HandleAdd(body.value)
       case AddBadRequest => BadRequest
       case AddInsert(fields) => InsertRequested(fields))
    case ToSearch => HandleSearch(body.value, all, matches)
    case NoRoute => BadRequest
  }

  /** A dict with a `question` key takes the add path, whatever else it holds. */
  lemma QuestionKeyWins(body: PyValue, all: seq<Question>, matches: (string, string) -> bool)
    requires body.PyDict? && HasKey(body.entries, "question")
    ensures PostQuestion(Some(body), all, matches)
        == match HandleAdd(body) case AddBadRequest => BadRequest case AddInsert(f) => InsertRequested(f)
  {
    var i :| 0 <= i < |body.entries| && body.entries[i].key == "question";
    assert Equals(PyStr("question"), PyStr(body.entries[i].key));
  }

  /** A dict with a `search_term` key and no `question` key takes the search path. */
  lemma SearchTermRoutesToSearch(body: PyValue, all: seq<Question>, matches: (string, string) -> bool)
    requires body.PyDict? && !HasKey(body.entries, "question") && HasKey(body.entries, "search_term")
    ensures PostQuestion(Some(body), all, matches) == HandleSearch(body, all, matches)
  {
    var i :| 0 <= i < |body.entries| && body.entries[i].key == "search_term";
    assert Equals(PyStr("search_term"), PyStr(body.entries[i].key));
  }

  /** A dict with neither key is a 400. */
  lemma NeitherKeyIsBadRequest(body: PyValue, all: seq<Question>, matches: (string, string) -> bool)
    requires body.PyDict? && !HasKey(body.entries, "question") && !HasKey(body.entries, "search_term")
    ensures PostQuestion(Some(body), all, matches) == BadRequest
  {
  }

  /** A body that is not a JSON object never adds and never searches: every
      such request ends in 400 or 422. */
  lemma NonObjectBodyFails(body: Option<PyValue>, all: seq<Question>, matches: (string, string) -> bool)
    requires body.None? || !body.value.PyDict?
    ensures PostQuestion(body, all, matches) in {BadRequest, Unprocessable}
  {
  }

  /** A JSON string body is dispatched by Python's substring `in`: if it
      contains `search_term` but not `question` it reaches the search path and
      fails there with 422; every other string is a 400. */
  lemma StringBodyOutcome(s: string, all: seq<Question>, matches: (string, string) -> bool)
    ensures PostQuestion(Some(PyStr(s)), all, matches)
        == if !IsSubstring("question", s) && IsSubstring("search_term", s) then Unprocessable else BadRequest
  {
  }
}

=== FILE: py_values.dfy ===
/**
 * The Python values a handler receives from `request.get_json()`, and the
 * builtins the handlers apply to them: `v[key]`, `len(v)`, `x in v`,
 * `str(v)` and `int(v)`. A builtin that raises (KeyError, TypeError,
 * ValueError) yields `None`.
 */
module PyValues {
  import opened Wrappers
  import IntText

  /** A decoded JSON document. A dict keeps its entries in insertion order,
      one entry per key (the decoder keeps one entry for a repeated key). */
  datatype PyValue =
    | PyNone
    | PyBool(b: bool)
    | PyInt(i: int)
    | PyStr(s: string)
    | PyList(items: seq<PyValue>)
    | PyDict(entries: seq<Entry>)

  /** One `key: value` pair of a dict. */
  datatype Entry = Entry(key: string, value: PyValue)

  predicate IsScalar(v: PyValue) {
    !v.PyList? && !v.PyDict?
  }

  /** The number a bool or int stands for; `True == 1` in Python. */
  function NumericValue(v: PyValue): Option<int> {
    match v
    case PyBool(b) => Some(if b then 1 else 0)
    case PyInt(i) => Some(i)
    case _ => None
  }

  /** `x == y` for a scalar `x` (never equal to a list or a dict). */
  predicate Equals(x: PyValue, y: PyValue)
    requires IsScalar(x)
  {
    match x
    case PyNone => y.PyNone?
    case PyStr(s) => y == PyStr(s)
    case _ => NumericValue(y).Some? && NumericValue(y) == NumericValue(x)
  }

  /** `v[key]` for a str key: KeyError on a dict without it, TypeError on anything else. */
  function Index(v: PyValue, key: string): (r: Option<PyValue>)
    ensures r.Some? <==> v.PyDict? && HasKey(v.entries, key)
    ensures r.Some? ==> Entry(key, r.value) in v.entries
  {
    if v.PyDict? then Lookup(v.entries, key) else None
  }

  predicate HasKey(entries: seq<Entry>, key: string) {
    exists i :: 0 <= i < |entries| && entries[i].key == key
  }

  function Lookup(entries: seq<Entry>, key: string): (r: Option<PyValue>)
    ensures r.Some? <==> HasKey(entries, key)
    ensures r.Some? ==> Entry(key, r.value) in entries
  {
    if |entries| == 0 then None
    else if entries[0].key == key then Some(entries[0].value)
    else
      var r := Lookup(entries[1..], key);
      assert HasKey(entries, key) ==> HasKey(entries[1..], key) by {
        if HasKey(entries, key) {
          var i :| 0 <= i < |entries| && entries[i].key == key;
          assert entries[1..][i - 1].key == key;
        }
      }
      r
  }

  /** `len(v)`: defined for str, list and dict; TypeError otherwise. */
  function Len(v: PyValue): (r: Option<nat>)
    ensures r.Some? <==> v.PyStr? || v.PyList? || v.PyDict?
    ensures r == Some(0) <==> v == PyStr("") || v == PyList([]) || v == PyDict([])
  {
    match v
    case PyStr(s) => Some(|s|)
    case PyList(items) => Some(|items|)
    case PyDict(entries) => Some(|entries|)
    case _ => None
  }

  /** `t` occurs in `s` as a contiguous run. */
  predicate IsSubstring(t: string, s: string) {
    t <= s || (|s| > 0 && IsSubstring(t, s[1..]))
  }

  /** `item in container` for a scalar item: element equality for a list, key
      equality for a dict, substring for a str (TypeError unless `item` is a
      str), TypeError for everything else. */
  function Contains(container: PyValue, item: PyValue): (r: Option<bool>)
    requires IsScalar(item)
    ensures r.None? <==> !(container.PyList? || container.PyDict? || container.PyStr?) || (container.PyStr? && !item.PyStr?)
    ensures container.PyDict? && item.PyStr? ==> (r == Some(true) <==> Index(container, item.s).Some?)
  {
    match container
    case PyList(items) => Some(exists i :: 0 <= i < |items| && Equals(item, items[i]))
    case PyDict(entries) => Some(exists i :: 0 <= i < |entries| && Equals(item, PyStr(entries[i].key)))
    case PyStr(s) => if item.PyStr? then Some(IsSubstring(item.s, s)) else None
    case _ => None
  }

  /** `str(v)`: a str is itself, everything else prints as its `repr`.
      It is empty exactly for the empty string. */
  function ToStr(v: PyValue): (r: string)
    ensures |r| == 0 <==> v == PyStr("")
  {
    if v.PyStr? then v.s else Repr(v)
  }

  /** `repr(v)`. */
  function Repr(v: PyValue): (r: string)
    ensures |r| > 0
    ensures v.PyInt? ==> r == IntText.Decimal(v.i)
    ensures v.PyStr? ==> |r| >= 2 && r[0] == r[|r| - 1] && (r[0] == '\'' || r[0] == '"')
    ensures v.PyList? ==> r[0] == '[' && r[|r| - 1] == ']'
    ensures v.PyDict? ==> r[0] == '{' && r[|r| - 1] == '}'
  {
    match v
    case PyNone => "None"
    case PyBool(b) => if b then "True" else "False"
    case PyInt(i) => IntText.Decimal(i)
    case PyStr(s) => QuoteStr(s)
    case PyList(items) => "[" + ReprItems(items) + "]"
    case PyDict(entries) => "{" + ReprEntries(entries) + "}"
  }

  /** The items of a list `repr`, separated by ", ". */
  function ReprItems(items: seq<PyValue>): string
  {
    if |items| == 0 then ""
    else if |items| == 1 then Repr(items[0])
    else Repr(items[0]) + ", " + ReprItems(items[1..])
  }

  /** The `key: value` pairs of a dict `repr`, separated by ", ". */
  function ReprEntries(entries: seq<Entry>): string
  {
    if |entries| == 0 then ""
    else
      var pair := QuoteStr(entries[0].key) + ": " + Repr(entries[0].value);
      if |entries| == 1 then pair else pair + ", " + ReprEntries(entries[1..])
  }

  /** `repr` of a str: single quotes unless the text holds a single quote and
      no double quote; backslash, the quote, tab, newline and carriage return
      escaped; other non-printable Latin-1 characters as `\xNN`. */
  function QuoteStr(s: string): (r: string)
    ensures |r| >= 2 && r[0] == r[|r| - 1] && (r[0] == '\'' || r[0] == '"')
    ensures r[0] == '"' <==> '\'' in s && '"' !in s
  {
    var q := if '\'' in s && '"' !in s then '"' else '\'';
    [q] + EscapeStr(s, q) + [q]
  }

  function EscapeStr(s: string, q: char): string
  {
    if |s| == 0 then "" else EscapeChar(s[0], q) + EscapeStr(s[1..], q)
  }

  function EscapeChar(c: char, q: char): string
  {
    if c == q || c == '\\' then ['\\', c]
    else if c == '\t' then "\\t"
    else if c == '\n' then "\\n"
    else if c == '\r' then "\\r"
    else if NonPrintableLatin1(c) then "\\x" + [HexDigit(c as int / 16), HexDigit(c as int % 16)]
    else [c]
  }

  predicate NonPrintableLatin1(c: char) {
    var n := c as int;
    n < 0x20 || 0x7F <= n <= 0xA0 || n == 0xAD
  }

  function HexDigit(d: int): char
    requires 0 <= d < 16
  {
    "0123456789abcdef"[d]
  }

  /** `int(v)`: an int is itself, a bool is 0 or 1, a str is parsed in base
      10; None, list and dict raise TypeError. */
  function ToInt(v: PyValue): (r: Option<int>)
    ensures NumericValue(v).Some? ==> r == NumericValue(v)
    ensures v.PyStr? ==> r == IntText.ParseInt(v.s)
    ensures r.None? <==> v.PyNone? || v.PyList? || v.PyDict? || (v.PyStr? && !IntText.Numeral(IntText.TrimRight(IntText.TrimLeft(v.s))))
  {
    match v
    case PyInt(i) => Some(i)
    case PyBool(b) => Some(if b then 1 else 0)
    case PyStr(s) => IntText.ParseInt(s)
    case _ => None
  }

  /** `int(str(n)) == n`: an integer that travels as text comes back unchanged. */
  lemma IntOfStrOfInt(n: int)
    ensures ToInt(PyStr(ToStr(PyInt(n)))) == Some(n)
  {
    IntText.ParseDecimal(n);
  }
}

=== FILE: quiz.dfy ===
/** `get_quiz_question`: the next quiz question, drawn at random from the
    chosen category while skipping the ones already shown. */
module Quiz {
  import opened Wrappers
  import opened Records
  import opened PyValues
  import Seqs

  /** `question.id in previous_questions` evaluated to True. */
  predicate Seen(id: int, previous: PyValue)
    ensures Seen(id, previous) ==> previous.PyList? && exists x :: x in previous.items && NumericValue(x) == Some(id)
  {
    Contains(previous, PyInt(id)) == Some(true)
  }

  /** The candidate pool: every question for category id `'0'`, otherwise the
      questions whose category text equals the id. */
  function Pool(all: seq<Question>, categoryId: string): (pool: seq<Question>)
    ensures categoryId == "0" ==> pool == all
    ensures categoryId != "0" ==> forall q :: q in pool <==> q in all && q.category == categoryId
    ensures forall q :: multiset(pool)[q] == if categoryId == "0" || q.category == categoryId then multiset(all)[q] else 0
  {
    if categoryId == "0" then all
    else
      var inCategory := (q: Question) => q.category == categoryId;
      Seqs.FilterCounts(all, inCategory);
      Seqs.Filter(all, inCategory)
  }

  /** A single question forms a pool exactly when category `'0'` is asked
      for or the question carries the category; with `PoolKeepsOrder` this
      fixes the pool of every list, duplicates and order included. */
  lemma PoolOfOne(q: Question, categoryId: string)
    ensures Pool([q], categoryId) == if categoryId == "0" || q.category == categoryId then [q] else []
  {
  }

  /** The pool keeps the questions in the order the store lists them. */
  lemma PoolKeepsOrder(a: seq<Question>, b: seq<Question>, categoryId: string)
    ensures Pool(a + b, categoryId) == Pool(a, categoryId) + Pool(b, categoryId)
  {
    if categoryId != "0" {
      Seqs.FilterConcat(a, b, (q: Question) => q.category == categoryId);
    }
  }

  /** `str(posted_data['quiz_category']['id'])` and `posted_data['previous_questions']`;
      None where an index raises. */
  function QuizRequest(body: Option<PyValue>): (r: Option<(string, PyValue)>)
    ensures r.Some? <==>
      && body.Some?
      && Index(body.value, "quiz_category").Some?
      && Index(Index(body.value, "quiz_category").value, "id").Some?
      && Index(body.value, "previous_questions").Some?
    ensures r.Some? ==>
      && Index(body.value, "previous_questions") == Some(r.value.1)
      && r.value.0 == ToStr(Index(Index(body.value, "quiz_category").value, "id").value)
  {
    if body.None? then None
    else
      match Index(body.value, "quiz_category")
      case None => None
      case Some(category) =>
        match Index(category, "id")
        case None => None
        case Some(id) =>
          match Index(body.value, "previous_questions")
          case None => None
          case Some(previous) => Some((ToStr(id), previous))
  }

  datatype QuizStep =
    | QuizServerError                                   // an uncaught exception: 500
    | QuizExhausted                                     // `question = False`
    | QuizDraw(pool: seq<Question>, previous: PyValue)  // the retry loop runs over `pool`

  /** Everything before the retry loop. Exhaustion is decided by comparing
      lengths. An empty pool that is not "exhausted" makes `randrange(0)`
      raise, and a str `previous_questions` makes the membership test raise. */
  function QuizRound(body: Option<PyValue>, all: seq<Question>): (r: QuizStep)
    ensures r.QuizDraw? ==> |r.pool| > 0 && (r.previous.PyList? || r.previous.PyDict?)
    ensures r.QuizDraw? ==> QuizRequest(body).Some? && r.pool == Pool(all, QuizRequest(body).value.0)
    ensures r.QuizDraw? ==> r.previous == QuizRequest(body).value.1
    ensures r.QuizExhausted? <==>
      QuizRequest(body).Some? && Len(QuizRequest(body).value.1) == Some(|Pool(all, QuizRequest(body).value.0)|)
    ensures r.QuizDraw? <==>
      && QuizRequest(body).Some?
      && var (id, prev) := QuizRequest(body).value;
      && Len(prev).Some?
      && Len(prev).value != |Pool(all, id)|
      && |Pool(all, id)| > 0
      && (prev.PyList? || prev.PyDict?)
  {
    match QuizRequest(body)
    case None => QuizServerError
    case Some((categoryId, previous)) =>
      var pool := Pool(all, categoryId);
      match Len(previous)
      case None => QuizServerError
      case Some(n) =>
        if |pool| == n then QuizExhausted
        else if |pool| == 0 then QuizServerError
        else if !(previous.PyList? || previous.PyDict?) then QuizServerError
        else QuizDraw(pool, previous)
  }

  /** The random source stays in range and eventually draws the index of a
      question not shown yet: exactly what the retry loop needs to stop. */
  ghost predicate DrawStops(pool: seq<Question>, previous: PyValue, draw: nat -> nat) {
    && (forall k: nat :: draw(k) < |pool|)
    && exists k: nat :: draw(k) < |pool| && !Seen(pool[draw(k)].id, previous)
  }

  /** The retry loop: `draw(k)` is what the k-th `randrange(len(questions))`
      returns. It stops at the first draw of an unseen question and returns it. */
  method DrawUnseen(pool: seq<Question>, previous: PyValue, draw: nat -> nat) returns (q: Question, attempts: nat)
    requires previous.PyList? || previous.PyDict?
    requires DrawStops(pool, previous, draw)
    ensures q == pool[draw(attempts)]
    ensures q in pool && !Seen(q.id, previous)
    ensures forall j: nat :: j < attempts ==> Seen(pool[draw(j)].id, previous)
  {
    ghost var hit: nat :| draw(hit) < |pool| && !Seen(pool[draw(hit)].id, previous);
    attempts := 0;
    while Seen(pool[draw(attempts)].id, previous)
      invariant attempts <= hit
      invariant forall j: nat :: j < attempts ==> Seen(pool[draw(j)].id, previous)
      decreases hit - attempts
    {
      attempts := attempts + 1;
    }
    q := pool[draw(attempts)];
  }

  datatype QuizResponse =
    | QuizFailed                          // 500
    | QuizAnswer(question: Option<Question>)  // `question`: a record, or False

  /** The whole handler. Under the loop's termination condition the answer is
      never a question already shown, and it comes from the chosen pool. */
  method GetQuizQuestion(body: Option<PyValue>, all: seq<Question>, draw: nat -> nat) returns (r: QuizResponse)
    requires QuizRound(body, all).QuizDraw? ==>
      DrawStops(QuizRound(body, all).pool, QuizRound(body, all).previous, draw)
    ensures r.QuizFailed? <==> QuizRound(body, all).QuizServerError?
    ensures r == QuizAnswer(None) <==> QuizRound(body, all).QuizExhausted?
    ensures r.QuizAnswer? && r.question.Some? ==>
      && QuizRequest(body).Some?
      && r.question.value in Pool(all, QuizRequest(body).value.0)
      && !Seen(r.question.value.id, QuizRequest(body).value.1)
  {
    var step := QuizRound(body, all);
    match step
    case QuizServerError =>
      r := QuizFailed;
    case QuizExhausted =>
      r := QuizAnswer(None);
    case QuizDraw(pool, previous) =>
      var q, _ := DrawUnseen(pool, previous, draw);
      r := QuizAnswer(Some(q));
  }

  /** When every candidate has been shown, no draw can stop the loop. */
  lemma AllSeenNeverStops(pool: seq<Question>, previous: PyValue, draw: nat -> nat)
    requires forall q :: q in pool ==> Seen(q.id, previous)
    ensures !DrawStops(pool, previous, draw)
  {
  }

  /** The list `[id, ...]` a client posts as `previous_questions`. */
  function IdList(ids: seq<int>): (v: PyValue)
    ensures v.PyList? && |v.items| == |ids|
    ensures forall i :: 0 <= i < |ids| ==> v.items[i] == PyInt(ids[i])
  {
    PyList(seq(|ids|, i requires 0 <= i < |ids| => PyInt(ids[i])))
  }

  lemma SeenInIdList(id: int, ids: seq<int>)
    ensures Seen(id, IdList(ids)) <==> id in ids
  {
    var v := IdList(ids);
    if id in ids {
      var i :| 0 <= i < |ids| && ids[i] == id;
      assert Equals(PyInt(id), v.items[i]);
    }
  }

  /** Length-based exhaustion misjudges a client that sends an id outside the
      pool: the lengths differ although the only candidate was shown, so the
      retry loop can never stop. */
  lemma LengthCheckMissesExhaustion()
    ensures var all := [Question(1, "Q", "A", "1", 1)];
      var body := PyDict([
        Entry("quiz_category", PyDict([Entry("id", PyStr("1"))])),
        Entry("previous_questions", IdList([1, 2]))]);
      var step := QuizRound(Some(body), all);
      && step == QuizDraw(all, IdList([1, 2]))
      && forall q :: q in step.pool ==> Seen(q.id, step.previous)
  {
    var all := [Question(1, "Q", "A", "1", 1)];
    var body := PyDict([
      Entry("quiz_category", PyDict([Entry("id", PyStr("1"))])),
      Entry("previous_questions", IdList([1, 2]))]);
    assert body.entries[1..] == [Entry("previous_questions", IdList([1, 2]))];
    assert QuizRequest(Some(body)) == Some(("1", IdList([1, 2])));
    Seqs.FilterKeepsAll(all, (q: Question) => q.category == "1");
    SeenInIdList(1, [1, 2]);
  }

  /** The converse misjudgement: an id of a question no longer in the pool
      (deleted since, or from another category) makes the lengths match while
      a candidate is still unseen, so the quiz ends early. */
  lemma LengthCheckEndsEarly()
    ensures var all := [Question(2, "Q", "A", "1", 1)];
      var body := PyDict([
        Entry("quiz_category", PyDict([Entry("id", PyInt(0))])),
        Entry("previous_questions", IdList([1]))]);
      && QuizRound(Some(body), all) == QuizExhausted
      && !Seen(2, IdList([1]))
  {
    var body := PyDict([
      Entry("quiz_category", PyDict([Entry("id", PyInt(0))])),
      Entry("previous_questions", IdList([1]))]);
    assert body.entries[1..] == [Entry("previous_questions", IdList([1]))];
    assert ToStr(PyInt(0)) == "0";
    assert QuizRequest(Some(body)) == Some(("0", IdList([1])));
    SeenInIdList(2, [1]);
  }

  function Ids(pool: seq<Question>): seq<int> {
    seq(|pool|, i requires 0 <= i < |pool| => pool[i].id)
  }

  /** For a consistent client (distinct ids, each one a pool member's) the
      length comparison agrees with "every candidate has been shown". */
  lemma LengthCheckSoundForConsistentClients(pool: seq<Question>, ids: seq<int>)
    requires Seqs.Distinct(Ids(pool))
    requires Seqs.Distinct(ids)
    requires forall x :: x in ids ==> x in Ids(pool)
    ensures |pool| == |ids| <==> forall q :: q in pool ==> Seen(q.id, IdList(ids))
  {
    var poolIds := Seqs.Elements(Ids(pool));
    var shown := Seqs.Elements(ids);
    Seqs.DistinctCardinality(Ids(pool));
    Seqs.DistinctCardinality(ids);
    assert shown <= poolIds;
    forall q | q in pool
      ensures Seen(q.id, IdList(ids)) <==> q.id in shown
    {
      SeenInIdList(q.id, ids);
    }
    if |pool| == |ids| {
      Seqs.SubsetOfEqualSize(shown, poolIds);
      forall q | q in pool ensures q.id in shown {
        var i :| 0 <= i < |pool| && pool[i] == q;
        assert Ids(pool)[i] == q.id;
      }
    }
    if forall q :: q in pool ==> Seen(q.id, IdList(ids)) {
      assert poolIds <= shown by {
        forall x | x in poolIds ensures x in shown {
          var i :| 0 <= i < |pool| && Ids(pool)[i] == x;
          assert pool[i] in pool;
        }
      }
      assert poolIds == shown;
    }
  }

  /** The questions of the pool not shown yet. */
  function Unseen(pool: seq<Question>, previous: PyValue): seq<Question> {
    Seqs.Filter(pool, (q: Question) => !Seen(q.id, previous))
  }

  /** The intended selection: exhausted exactly when every candidate has been
      shown, otherwise one draw (`pick`) among the unseen ones. */
  function PickUnseen(pool: seq<Question>, previous: PyValue, pick: nat): (r: Option<Question>)
    ensures r.None? <==> forall q :: q in pool ==> Seen(q.id, previous)
    ensures r.Some? ==> r.value in pool && !Seen(r.value.id, previous)
  {
    var unseen := Unseen(pool, previous);
    if |unseen| == 0 then None
    else
      var chosen := unseen[pick % |unseen|];
      assert chosen in unseen;
      Some(chosen)
  }

  /** The handler with the intended exhaustion rule: no length comparison, no
      retry loop, and an empty pool is simply exhausted. */
  function CorrectedQuizQuestion(body: Option<PyValue>, all: seq<Question>, pick: nat): (r: QuizResponse)
    ensures r.QuizFailed? <==>
      QuizRequest(body).None? || !(QuizRequest(body).value.1.PyList? || QuizRequest(body).value.1.PyDict?)
    ensures r.QuizAnswer? ==>
      var (categoryId, previous) := QuizRequest(body).value;
      && (r.question.None? <==> forall q :: q in Pool(all, categoryId) ==> Seen(q.id, previous))
      && (r.question.Some? ==> r.question.value in Pool(all, categoryId) && !Seen(r.question.value.id, previous))
  {
    match QuizRequest(body)
    case None => QuizFailed
    case Some((categoryId, previous)) =>
      if !(previous.PyList? || previous.PyDict?) then QuizFailed
      else QuizAnswer(PickUnseen(Pool(all, categoryId), previous, pick))
  }
}

=== FILE: records.dfy ===
/** Rows of the two tables the handlers read: `questions` and `categories`. */
module Records {

  /** A row of `questions`; `category` holds a category id as text. */
  datatype Question = Question(
    id: int,
    question: string,
    answer: string,
    category: string,
    difficulty: int)

  /** A row of `categories`; `typeName` is the column named `type` (the display name). */
  datatype Category = Category(id: int, typeName: string)
}

=== FILE: seqs.dfy ===
/** Sequence helpers shared by the handlers: filtering and distinctness. */
module Seqs {

  /** The elements of `s` that satisfy `p`, in their original order
      (a list comprehension `[x for x in s if p(x)]`, or an SQL `WHERE`). */
  function Filter<T(==,!new)>(s: seq<T>, p: T -> bool): (r: seq<T>)
    ensures |r| <= |s|
    ensures forall x :: x in r <==> x in s && p(x)
  {
    if |s| == 0 then []
    else (if p(s[0]) then [s[0]] else []) + Filter(s[1..], p)
  }

  /** Filtering distributes over concatenation, so it keeps relative order. */
  lemma {:induction false} FilterConcat<T(!new)>(a: seq<T>, b: seq<T>, p: T -> bool)
    ensures Filter(a + b, p) == Filter(a, p) + Filter(b, p)
    decreases |a|
  {
    if |a| > 0 {
      assert (a + b)[1..] == a[1..] + b;
      FilterConcat(a[1..], b, p);
    } else {
      assert a + b == b;
    }
  }

  /** Filtering keeps every passing element exactly as often as it occurs,
      and drops every other one. */
  lemma {:induction false} FilterCounts<T(!new)>(s: seq<T>, p: T -> bool)
    ensures forall x :: multiset(Filter(s, p))[x] == if p(x) then multiset(s)[x] else 0
    decreases |s|
  {
    if |s| > 0 {
      FilterCounts(s[1..], p);
      assert s == [s[0]] + s[1..];
      assert multiset(s) == multiset([s[0]]) + multiset(s[1..]);
    }
  }

  /** Filtering keeps everything when every element passes. */
  lemma {:induction false} FilterKeepsAll<T(!new)>(s: seq<T>, p: T -> bool)
    requires forall i :: 0 <= i < |s| ==> p(s[i])
    ensures Filter(s, p) == s
    decreases |s|
  {
    if |s| > 0 {
      FilterKeepsAll(s[1..], p);
    }
  }

  /** No value occurs twice. */
  predicate Distinct<T(==)>(s: seq<T>) {
    forall i, j :: 0 <= i < j < |s| ==> s[i] != s[j]
  }

  function Elements<T>(s: seq<T>): set<T> {
    set x | x in s
  }

  /** A duplicate-free sequence has as many elements as its set. */
  lemma {:induction false} DistinctCardinality<T>(s: seq<T>)
    requires Distinct(s)
    ensures |Elements(s)| == |s|
    decreases |s|
  {
    if |s| > 0 {
      var rest := s[1..];
      assert Distinct(rest) by {
        forall i, j | 0 <= i < j < |rest| ensures rest[i] != rest[j] {
          assert rest[i] == s[i + 1] && rest[j] == s[j + 1];
        }
      }
      DistinctCardinality(rest);
      assert s[0] !in rest by {
        forall i | 0 <= i < |rest| ensures rest[i] != s[0] {
          assert rest[i] == s[i + 1];
        }
      }
      assert Elements(s) == Elements(rest) + {s[0]} by {
        assert s == [s[0]] + rest;
      }
      assert s[0] !in Elements(rest);
    }
  }

  /** A subset as large as its superset is the superset (finite sets). */
  lemma SubsetOfEqualSize<T>(a: set<T>, b: set<T>)
    requires a <= b && |a| == |b|
    ensures a == b
  {
    assert b == a + (b - a);
    assert |b - a| == 0;
  }
}

=== FILE: wrappers.dfy ===
/** The failure-carrying wrapper used across the model. */
module Wrappers {

  /** `None` stands for a Python expression that raised instead of producing a value. */
  datatype Option<+T> = None | Some(value: T)
}
